=== FILE: README.md ===
# PiknikParser catalog crawler, modelled in Dafny

`main.rb` scrapes the product catalog of piknikvdom.ru. It walks sections,
then their subsections, then each subsection's pages. Every product card gets
an identity hash: SHA-256 of section + subsection + name. Cards whose hash is
already in the catalog file are skipped. New cards are appended to the
tab-separated catalog and their picture, if any, is saved as `<hash><extension>`. The
crawl stops with `'break'` once 50 new goods are in. `stat` then reports the
catalog's composition, the share of goods with a picture, and the smallest
and largest picture, resolved back to the good it shows.

The model is functional:

- `Crawl` folds the crawl over an input tree of sections, subsections, pages
  and cards. The state is `(rows, saved, parsed, status)`. The nested
  traversal, written as the source nests it, is proved equal to one flat
  fold over the cards in crawl order.
- `Assets` and `Strings` model the `sub` chain that cuts the image URL out of
  the inline style, plus `File.extname`, `File.basename` and `split('.')[0]`.
- `Aggregation` models the category → {`:qnt`, subcategory → entries} hash.
  It is proved equal to an independent description of the grouping.
- `Catalog` models the rows of the catalog file, the `@saved` hash column and
  `get_row_by_hash`.
- `Stats` models coverage, the first minimal and maximal file, and the file
  information `stat` reports for them.
- `Parser` connects the crawl to `stat`.

The digest is a parameter `hash: string -> string` with no assumed
properties. Where a round trip needs it, a lemma requires that the hash is
not empty and contains no `.` and no `/` (hex digests are 64 characters with
neither). The pages fetched
and the image directory listing are inputs. Downloads are data: the list of
`(url, path)` pairs the crawl would save, one per appended row with a
non-empty image URL.

Behaviour the code does not implement, and which the model therefore leaves
out as well:

- There is no refill pass when all goods fall into one category (a section,
  `r[0]`). The comment at main.rb:9 promises one, but the code never does it.
- Tab characters are not sanitised.
- Hashes are not recomputed when the catalog is loaded. `@saved` is the stored
  hash column as it is (main.rb:40).
- Fetch errors are not recovered from. A failed picture download at main.rb:81
  raises out of `initialize`. By then line 76 has already written the row,
  but `@parsed` and `@saved` have not changed, and no `stat` runs. Later runs
  skip that good, so its picture is never fetched. The model assumes every
  fetch succeeds, and `Parser.RunDownloadsExact` holds only under that
  assumption.

The constructor arguments are ignored, because `||=` is applied to unset
instance variables (main.rb:30-33). The model follows this: the quota is
fixed at 50 and the image directory at `./img`.

## Model

| member | source | states |
|---|---|---|
| Strings.Sub | main.rb:71-72 | `String#sub` with a literal pattern; its contract is stated by Strings.SubSpec |
| Strings.SubSpec | main.rb:71-72 | `String#sub` with a literal pattern: without an occurrence the string is unchanged; otherwise exactly the leftmost occurrence is replaced |
| Strings.IndexOfSpec | main.rb:71-72 | the position found is the leftmost occurrence of the pattern, and none is found exactly when the pattern does not occur |
| Strings.Basename | main.rb:132 | trailing separators are ignored: for a path with a non-separator character the result is its last component (non-empty, no `/`, a suffix of the path without its trailing separators, preceded by `/` or starting it); a path made only of separators gives `"/"` and the empty path gives `""` |
| Strings.BasenameAfterSlash | main.rb:80 | the basename of `dir + "/" + name`, for a non-empty name without `/`, is that name |
| Strings.TrailingSlashIgnored | main.rb:80 | a trailing `/` changes neither the extension of any path nor the basename of a non-empty one, so `/upload/pic.jpg/` has extension `.jpg` |
| Strings.Extname | main.rb:80 | `File.extname` (before Ruby 2.7): the extension of the basename, ignoring leading dots; its contract is stated by Strings.ExtnameShape, Strings.ExtnameOfFileName and Strings.TrailingSlashIgnored |
| Strings.ExtnameShape | main.rb:80 | an extension is empty or a dot followed by at least one character with no further dot; it has no `/` and ends the path once the path's trailing separators are dropped |
| Strings.ExtnameOfFileName | main.rb:80 | `dir/stem.ext` has extension `.ext` when the stem does not start with a dot |
| Strings.PrefixBefore | main.rb:135 | `split('.')[0]`: the result is a dot-free prefix, followed in the name by a dot or by nothing |
| Strings.PrefixBeforeSuffix | main.rb:135 | a dot-free stem followed by an empty or dot-led tail splits back to the stem |
| Assets.ImgUrl | main.rb:71-72 | the three `sub` calls that cut the image URL out of the inline style; its contract is stated by Assets.ImgUrlOfStyle, Assets.NoPhotoGivesEmptyUrl and Assets.PhotoUrlKept |
| Assets.ImgPath | main.rb:80 | `"#{ @img_dir }/#{ hash }#{ File.extname(img_url) }"`; its contract is stated by Assets.AssetNameRoundTrip |
| Assets.HashOfFileName | main.rb:135 | `f_name.split('.')[0]`; its contract is stated by Strings.PrefixBefore and Assets.AssetNameRoundTrip |
| Assets.ImgUrlOfStyle | main.rb:71-72 | for `background: url(P) no-repeat center center` with no `)` in P, the URL is P with the placeholder path removed |
| Assets.NoPhotoGivesEmptyUrl | main.rb:71-72 | the placeholder style yields the empty image URL |
| Assets.PhotoUrlKept | main.rb:71-72 | a real picture path is extracted unchanged |
| Assets.AssetNameRoundTrip | main.rb:80 | the picture saved for a non-empty hash without `.` or `/` has basename `hash + extname`, and `stat` recovers the hash from that name |
| Catalog.Hashes | main.rb:40 | the hash column `r[5]` of the catalog rows, one per row; its contents are stated by Catalog.HashesIndex |
| Catalog.HashesIndex | main.rb:40 | `@saved` holds, position by position, the hash column of the catalog rows |
| Catalog.FirstRowWithHash | main.rb:98 | `select{...}[0]`: the first row whose hash column matches, or none when no row matches |
| Catalog.GetRowByHash | main.rb:96-98 | `[]` exactly for a hash not in `@saved`; `nil` exactly when `@saved` has the hash but no row does; otherwise the first row with that hash |
| Catalog.LookupOfIndexedCatalog | main.rb:96-98 | when `@saved` is the hash column, a hash is found exactly when it is saved, and `nil` never comes back |
| Crawl.Key | main.rb:74 | the identity of a card: the digest of section + subsection + name with no separator; stated by Crawl.Visit and Crawl.ConcatenationCollision |
| Crawl.RowOf | main.rb:71-76 | the row appended for a card: section, subsection, name, link, image URL, hash; stated by Crawl.Visit |
| Crawl.DownloadOf | main.rb:79-81 | the download of an appended row: from the site URL plus the image URL to the image path; stated by Crawl.PhotoCardDownloaded |
| Crawl.Initial | main.rb:40-44 | a run starts with the stored hash column as `@saved`, `@parsed` at 0, not stopped |
| Crawl.Visit | main.rb:74-86 | a card whose hash is saved changes nothing; any other card appends one row (section, subsection, name, href, image URL, hash) and its hash, adds one to `@parsed`, and stops the crawl exactly when `@parsed` reaches the quota |
| Crawl.Fold | main.rb:67-87 | a stopped crawl and an empty listing leave the state unchanged |
| Crawl.FoldConcat | main.rb:86-93 | crawling two runs of cards is crawling the first and then the second from where it ended |
| Crawl.FoldStopsAtBreak | main.rb:59 | once `'break'` is returned, no later card, page or subsection changes the state |
| Crawl.FoldAppends | main.rb:76-85 | the crawl only appends: the new rows, in order, with `@parsed` grown by their number and their hashes appended to `@saved` |
| Crawl.FoldKeepsIndex | main.rb:76-85 | `@saved` stays exactly the hash column of the catalog file |
| Crawl.FoldKeepsNoDup | main.rb:75-85 | a duplicate-free `@saved` stays duplicate-free |
| Crawl.FoldKeepsQuota | main.rb:84-86 | `@parsed` never passes the quota, and the crawl is stopped exactly when `@parsed` equals it |
| Crawl.FoldExhaustive | main.rb:67-93 | a crawl that was not stopped has the hash of every card it was given in `@saved` |
| Crawl.FoldReachesQuota | main.rb:84-86 | with at least as many new identities as the quota allows, the crawl stops with `@parsed` equal to the quota |
| Crawl.ConcatenationCollision | main.rb:74-75 | with no separator, the triples ("Ab", "c", n) and ("A", "bc", n) are the same good, so the second is skipped |
| Crawl.DownloadsFor | main.rb:79-82 | at most one download per appended row, and none when no appended row has an image URL |
| Crawl.NoPhotoCardNotDownloaded | main.rb:71-82 | a placeholder card is stored with an empty image URL and causes no download |
| Crawl.PhotoCardDownloaded | main.rb:79-81 | a card with a real picture causes exactly one download, from the site URL plus the path, to `img_dir/hash + extname` |
| Crawl.DownloadsForMember | main.rb:79-81 | every appended row with a non-empty image URL causes its download |
| Crawl.DownloadsForSources | main.rb:79-81 | every download comes from an appended row with a non-empty image URL |
| Crawl.VisitCards | main.rb:67-87 | the `each` over a page's cards with its early `'break'`; its contract is stated by Crawl.VisitCardsIsFold |
| Crawl.VisitPages | main.rb:66-94 | `parse_subsect`: the cards of a page, then the next page while there is one; its contract is stated by Crawl.VisitPagesIsFold |
| Crawl.VisitSubsections | main.rb:53-60 | the subsections of a section, ended by `return if … == 'break'`; its contract is stated by Crawl.VisitSubsectionsIsFold |
| Crawl.VisitSections | main.rb:49-61 | the sections of the catalog page in order; its contract is stated by Crawl.VisitSectionsIsFold |
| Crawl.CardListings | main.rb:67 | the cards of a page are listed in page order, each tagged with its section and subsection |
| Crawl.VisitCardsIsFold | main.rb:67-87 | the card loop of a page is the fold over its cards in order |
| Crawl.VisitPagesIsFold | main.rb:66-94 | the recursive next-page call is the fold over the pages in link order, and `'break'` propagates out of it |
| Crawl.VisitSubsectionsIsFold | main.rb:53-60 | the subsection loop is the fold over its subsections' pages, ended by `'break'` |
| Crawl.VisitSectionsIsFold | main.rb:49-61 | the whole nested crawl is the fold over all cards: sections, subsections, pages, then cards, in order |
| Crawl.Run | main.rb:29-61 | `initialize`: the catalog file's rows and hash column, then the whole crawl with quota 50 and `./img`; its contract is stated by Crawl.RunProperties, Crawl.RunCoverage and Crawl.RunAddsOnlyNew |
| Crawl.AddedAreNew | main.rb:75-85 | every row the crawl appends has a hash that was not in `@saved` when the crawl started |
| Crawl.RunAddsOnlyNew | main.rb:40-85 | no row appended by a run has the hash of a row already in the catalog file |
| Crawl.RunProperties | main.rb:29-61 | after a run the old rows are kept, `@saved` is the hash column, the new rows number `@parsed` ≤ 50, the crawl stopped exactly at 50, and duplicate-freedom of `@saved` is preserved |
| Crawl.RunCoverage | main.rb:49-61 | a run not stopped by the quota has recorded every card of the site; a site with at least 50 new identities fills the quota exactly |
| Aggregation.Sects | main.rb:109 | the section column `r[0]` of the rows, row by row |
| Aggregation.Distinct | main.rb:109 | the categories seeded are duplicate-free and are exactly the sections of the rows |
| Aggregation.DistinctFirstOccurrenceOrder | main.rb:109-116 | categories (and subcategories) appear in the order of their first row |
| Aggregation.Aggregate | main.rb:108-114 | the category hash built by `stat`; its contract is stated by Aggregation.AggregateIsGrouping and Aggregation.AggregateCounts |
| Aggregation.AggregateIsGrouping | main.rb:109-114 | the grouping lists each category once in first-row order, with `:qnt` its number of rows, and each subcategory in first-row order with exactly its rows' entries (`r.drop(2)`) in file order |
| Aggregation.AggregateCounts | main.rb:109-121 | every `:qnt` equals the sum of its subcategory list lengths, the `:qnt`s sum to the number of rows, and the categories are the distinct sections in first-row order |
| Stats.Coverage | main.rb:126-127 | the percentage is `100 * images / saved` rounded down, at most 100 when there are no more pictures than goods |
| Stats.Sizes | main.rb:129 | the sizes list follows the file list position by position |
| Stats.MinOf | main.rb:141 | the minimum is one of the sizes and no size is smaller |
| Stats.MaxOf | main.rb:142 | the maximum is one of the sizes and no size is larger |
| Stats.FirstIndex | main.rb:132 | `index(size)`: the position holds the size and no earlier position does |
| Stats.MinIndex | main.rb:131-141 | the file reported as smallest is the first one in listing order with the minimal size |
| Stats.MaxIndex | main.rb:131-142 | the file reported as largest is the first one in listing order with the maximal size |
| Stats.Sum | main.rb:144 | the `inject` total of the sizes; its contract is stated by Stats.SumBetween and Stats.AverageBetweenExtremes |
| Stats.SumBetween | main.rb:144 | a total of sizes each between `lo` and `hi` lies between `lo` and `hi` times their number |
| Stats.AverageBetweenExtremes | main.rb:141-148 | the total lies between `min * count` and `max * count`, so the printed average lies between the smallest and the largest picture |
| Stats.FileInfoAt | main.rb:131-138 | the file info has the file's size and basename, the hash is the name up to the first dot, the good is absent exactly for an unsaved hash and otherwise is the name of the first row with that hash; it fails exactly when `get_row_by_hash` returns `nil` |
| Stats.ImageFigures | main.rb:123-142 | picture count, coverage and byte total; the smallest and largest file reported are the first of the smallest and the first of the largest, each given with its size, basename, hash-before-the-first-dot and resolved good; fails exactly when one of those two lookups hits `nil[2]` |
| Stats.Stat | main.rb:101-142 | nothing but a zero count when `@saved` is empty; otherwise the count is `@saved.size` and the composition is the grouping of the file; picture figures exactly when there are pictures, and then they are exactly the figures of the image list; fails exactly when resolving the smallest or largest file fails |
| Stats.StatOfIndexedCatalog | main.rb:96-98 | when `@saved` is the hash column of the file, `stat` never reaches `nil[2]` |
| Stats.SavedPictureResolves | main.rb:80-137 | a picture saved by the crawl resolves through its file name to its hash and to a good |
| Parser.RunDownloads | main.rb:79-86 | a run saves at most 50 pictures |
| Parser.RunDownloadsExact | main.rb:79-81 | a run saves a picture exactly for each newly appended row with a non-empty image URL, to the path named after that row's hash |
| Parser.Session | main.rb:59-63 | one run: the crawl, then one `stat` (line 63, or line 157 when the `return` at line 59 skipped it) over the file, `@saved` and the image directory; its contract is stated by Parser.SessionReports |
| Parser.SessionReports | main.rb:59-103 | after a crawl `stat` completes, counts the old rows plus the new goods (at most 50 new), and groups every row of the file |
| Parser.RediscoveredGoodSkipped | main.rb:40-75 | a good already stored in the catalog file is not added again when the crawl finds it: as the first card it leaves the state unchanged, and no new row of the run carries its identity |

## Left out

- Fetching pages with Mechanize, the CSS selectors and HTML attribute access (main.rb:46-55, 67-69, 81, 89). The site is an input tree of sections, subsections, pages and cards. A page has a next link exactly when another page follows it. A subsection with no pages is treated as one with no cards. The pages of a subsection are a finite sequence. The code follows next-page links (main.rb:89-93) without remembering the pages it has visited. If the links form a cycle whose cards are all duplicates, the quota is never reached. The recursion then goes on until Ruby's stack overflows. The model cannot express such a cycle.
- Opening, reading and appending the CSV file, `Dir.mkdir` and `Dir.glob` (main.rb:34-40, 98, 107-108, 123). The catalog is a sequence of rows and the image directory is the list of files the glob returned, with their sizes.
- SHA-256 itself. It is a parameter of the model about which nothing is assumed.
- Saving picture bytes. Downloads are listed as `(url, path)` pairs. The path is the one requested at main.rb:80-81, not necessarily the file finally written: Mechanize's `save` does not overwrite, so if `<hash><ext>` already exists the picture goes to `<hash><ext>.1`, which the glob at main.rb:123 does not list.
- The float KB formatting and the float average (main.rb:144-148). Only the integer byte total and the count are modelled.
- Console output, and the effect of `return` at main.rb:59 skipping the first `stat`. Only one `stat` after the crawl is modelled. The second call at main.rb:157, on an already closed file, is not modelled.
- Strings.Extname: follows Ruby before 2.7, where a name ending in a dot has an empty extension. Ruby 2.7 and later return `"."`. Windows-specific handling is not modelled.
- Assets.AssetNameRoundTrip: requires a non-empty hash. With an empty hash and an empty extension the path would end in `/`, and `File.basename` would name the image directory instead. SHA-256 hex digests are never empty.
- Stats.SavedPictureResolves: requires a non-empty hash, for the same reason.
- Strings.PrefixBefore: for a file name made only of dots, Ruby's `split('.')[0]` is `nil`; the model yields `""`. Glob results never look like this.
- Crawl.DownloadsFor: its contract gives only the count bound and the no-picture case. Per-card contents are stated by Crawl.NoPhotoCardNotDownloaded and Crawl.PhotoCardDownloaded, and membership in both directions by Crawl.DownloadsForMember and Crawl.DownloadsForSources.
- The single-category refill, tab sanitising, hash recomputation on load and fetch-error recovery. The code does none of these.

=== FILE: aggregation.dfy ===
/**
 The composition part of `stat`: the catalog rows are grouped into
 category -> { :qnt, subcategory -> entries }, categories seeded in the order
 of their first row (a Ruby Hash keeps insertion order) and subcategories
 added as their first row is met.
 */
module Aggregation {
  import opened Catalog

  datatype SubGroup = SubGroup(title: string, entries: seq<Entry>)

  datatype Category = Category(title: string, qnt: nat, subs: seq<SubGroup>)

  /** `xs` with later repeats dropped: the keys of a Ruby Hash built from `xs`, in order. */
  function Distinct(xs: seq<string>): (r: seq<string>)
    ensures NoDup(r)
    ensures forall x :: x in r <==> x in xs
  {
    if |xs| == 0 then []
    else
      var d := Distinct(xs[..|xs| - 1]);
      var last := xs[|xs| - 1];
      assert xs == xs[..|xs| - 1] + [last];
      if last in d then d else d + [last]
  }

  /** `a` occurs in `xs` before any occurrence of `b`. */
  predicate FirstBefore(xs: seq<string>, a: string, b: string) {
    exists k :: 0 <= k < |xs| && xs[k] == a && b !in xs[..k + 1]
  }

  /** `Distinct` lists the values in the order of their first occurrence. */
  lemma {:induction false} DistinctFirstOccurrenceOrder(xs: seq<string>)
    ensures forall i, j :: 0 <= i < j < |Distinct(xs)| ==> FirstBefore(xs, Distinct(xs)[i], Distinct(xs)[j])
  {
    if |xs| > 0 {
      var p := xs[..|xs| - 1];
      var last := xs[|xs| - 1];
      var d := Distinct(p);
      DistinctFirstOccurrenceOrder(p);
      var r := Distinct(xs);
      forall i, j | 0 <= i < j < |r|
        ensures FirstBefore(xs, r[i], r[j])
      {
        if j < |d| {
          assert FirstBefore(p, d[i], d[j]);
          var k :| 0 <= k < |p| && p[k] == d[i] && d[j] !in p[..k + 1];
          assert xs[..k + 1] == p[..k + 1];
        } else {
          assert r[j] == last && last !in p;
          assert d[i] in p;
          var k :| 0 <= k < |p| && p[k] == d[i];
          assert xs[..k + 1] == p[..k + 1];
          assert forall m :: 0 <= m <= k ==> xs[m] == p[m];
        }
      }
    }
  }

  // The grouping as `stat` computes it.

  /** The section column of the rows, row by row. */
  function Sects(rows: seq<Row>): (r: seq<string>)
    ensures |r| == |rows|
    ensures forall i :: 0 <= i < |rows| ==> r[i] == rows[i].sect
  {
    if |rows| == 0 then [] else Sects(rows[..|rows| - 1]) + [rows[|rows| - 1].sect]
  }

  /** `Hash[data.collect{|r| [r[0], {:qnt => 0}]}]`: every category with no goods yet. */
  function Seed(cats: seq<string>): (r: seq<Category>)
    ensures |r| == |cats|
  {
    if |cats| == 0 then [] else [Category(cats[0], 0, [])] + Seed(cats[1..])
  }

  /** Appends the entry of `row` to its subcategory, creating the subcategory at the end if new. */
  function SubInsert(subs: seq<SubGroup>, row: Row): seq<SubGroup> {
    if |subs| == 0 then [SubGroup(row.subsect, [row.Tail()])]
    else if subs[0].title == row.subsect then [SubGroup(subs[0].title, subs[0].entries + [row.Tail()])] + subs[1..]
    else [subs[0]] + SubInsert(subs[1..], row)
  }

  /** One turn of `data.each`: the row's category counts one more good and files its entry. */
  function Insert(cats: seq<Category>, row: Row): seq<Category> {
    if |cats| == 0 then []
    else if cats[0].title == row.sect then
      [Category(cats[0].title, cats[0].qnt + 1, SubInsert(cats[0].subs, row))] + cats[1..]
    else [cats[0]] + Insert(cats[1..], row)
  }

  /** The rows folded into `cats` in file order. */
  function InsertAll(cats: seq<Category>, rows: seq<Row>): seq<Category> {
    if |rows| == 0 then cats else Insert(InsertAll(cats, rows[..|rows| - 1]), rows[|rows| - 1])
  }

  /** The `catalog` hash of `stat`. */
  function Aggregate(rows: seq<Row>): seq<Category> {
    InsertAll(Seed(Distinct(Sects(rows))), rows)
  }

  // An independent description of the grouping.

  /** The rows of category `c`, in file order. */
  function InCat(rows: seq<Row>, c: string): seq<Row> {
    if |rows| == 0 then []
    else InCat(rows[..|rows| - 1], c) + (if rows[|rows| - 1].sect == c then [rows[|rows| - 1]] else [])
  }

  function Subsects(rows: seq<Row>): seq<string> {
    if |rows| == 0 then [] else Subsects(rows[..|rows| - 1]) + [rows[|rows| - 1].subsect]
  }

  /** The entries of the rows of subcategory `s`, in file order. */
  function EntriesIn(rows: seq<Row>, s: string): seq<Entry> {
    if |rows| == 0 then []
    else EntriesIn(rows[..|rows| - 1], s) + (if rows[|rows| - 1].subsect == s then [rows[|rows| - 1].Tail()] else [])
  }

  function SubView(ss: seq<string>, rs: seq<Row>): seq<SubGroup> {
    if |ss| == 0 then [] else [SubGroup(ss[0], EntriesIn(rs, ss[0]))] + SubView(ss[1..], rs)
  }

  /** Category `c` as it should be reported: all its rows, by subcategory in order of first appearance. */
  function CatOf(c: string, rows: seq<Row>): Category {
    var rs := InCat(rows, c);
    Category(c, |rs|, SubView(Distinct(Subsects(rs)), rs))
  }

  function CatView(cs: seq<string>, rows: seq<Row>): seq<Category> {
    if |cs| == 0 then [] else [CatOf(cs[0], rows)] + CatView(cs[1..], rows)
  }

  /** The grouping: every category in order of its first row, each as `CatOf` describes it. */
  function Grouping(rows: seq<Row>): seq<Category> {
    CatView(Distinct(Sects(rows)), rows)
  }

  // The proof that `Aggregate` computes `Grouping`.

  lemma {:induction false} SeedIsEmptyView(cs: seq<string>)
    ensures Seed(cs) == CatView(cs, [])
  {
    if |cs| > 0 {
      SeedIsEmptyView(cs[1..]);
    }
  }

  lemma {:induction false} SubViewUnaffected(ss: seq<string>, rs: seq<Row>, row: Row)
    requires row.subsect !in ss
    ensures SubView(ss, rs + [row]) == SubView(ss, rs)
  {
    if |ss| > 0 {
      assert (rs + [row])[..|rs|] == rs;
      assert EntriesIn(rs + [row], ss[0]) == EntriesIn(rs, ss[0]);
      SubViewUnaffected(ss[1..], rs, row);
    }
  }

  lemma {:induction false} SubInsertMatchesView(ss: seq<string>, rs: seq<Row>, row: Row)
    requires NoDup(ss)
    requires row.subsect !in ss ==> EntriesIn(rs, row.subsect) == []
    ensures SubInsert(SubView(ss, rs), row)
      == SubView(if row.subsect in ss then ss else ss + [row.subsect], rs + [row])
  {
    var rs' := rs + [row];
    assert rs'[..|rs|] == rs;
    if |ss| == 0 {
      assert EntriesIn(rs, row.subsect) == [];
      assert EntriesIn(rs', row.subsect) == EntriesIn(rs, row.subsect) + [row.Tail()];
      assert EntriesIn(rs', row.subsect) == [row.Tail()];
      assert SubView(ss, rs) == [];
      assert ss + [row.subsect] == [row.subsect];
      assert [row.subsect][1..] == [];
      assert SubView([row.subsect], rs') == [SubGroup(row.subsect, EntriesIn(rs', row.subsect))];
    } else if ss[0] == row.subsect {
      assert row.subsect !in ss[1..];
      SubViewUnaffected(ss[1..], rs, row);
    } else {
      SubInsertMatchesView(ss[1..], rs, row);
      assert EntriesIn(rs', ss[0]) == EntriesIn(rs, ss[0]);
      var ss' := if row.subsect in ss then ss else ss + [row.subsect];
      assert ss'[0] == ss[0];
      assert ss'[1..] == if row.subsect in ss[1..] then ss[1..] else ss[1..] + [row.subsect];
    }
  }

  lemma {:induction false} EntriesOfUnseen(rs: seq<Row>, s: string)
    ensures s !in Subsects(rs) ==> EntriesIn(rs, s) == []
  {
    if |rs| > 0 {
      assert Subsects(rs) == Subsects(rs[..|rs| - 1]) + [rs[|rs| - 1].subsect];
      EntriesOfUnseen(rs[..|rs| - 1], s);
    }
  }

  lemma {:induction false} CatOfInsert(c: string, q: seq<Row>, row: Row)
    requires row.sect == c
    ensures CatOf(c, q + [row]) == Category(c, CatOf(c, q).qnt + 1, SubInsert(CatOf(c, q).subs, row))
  {
    var p := q + [row];
    assert p[..|q|] == q;
    var rs := InCat(q, c);
    assert InCat(p, c) == rs + [row];
    assert (rs + [row])[..|rs|] == rs;
    assert Subsects(rs + [row]) == Subsects(rs) + [row.subsect];
    var ss := Distinct(Subsects(rs));
    assert Distinct(Subsects(rs) + [row.subsect]) == if row.subsect in ss then ss else ss + [row.subsect];
    EntriesOfUnseen(rs, row.subsect);
    SubInsertMatchesView(ss, rs, row);
  }

  lemma {:induction false} CatViewUnaffected(cs: seq<string>, q: seq<Row>, row: Row)
    requires row.sect !in cs
    ensures CatView(cs, q + [row]) == CatView(cs, q)
  {
    if |cs| > 0 {
      assert (q + [row])[..|q|] == q;
      assert InCat(q + [row], cs[0]) == InCat(q, cs[0]);
      CatViewUnaffected(cs[1..], q, row);
    }
  }

  lemma {:induction false} InsertMatchesView(cs: seq<string>, q: seq<Row>, row: Row)
    requires NoDup(cs) && row.sect in cs
    ensures Insert(CatView(cs, q), row) == CatView(cs, q + [row])
  {
    if cs[0] == row.sect {
      CatOfInsert(cs[0], q, row);
      assert row.sect !in cs[1..];
      CatViewUnaffected(cs[1..], q, row);
    } else {
      assert (q + [row])[..|q|] == q;
      assert InCat(q + [row], cs[0]) == InCat(q, cs[0]);
      InsertMatchesView(cs[1..], q, row);
    }
  }

  lemma {:induction false} SectsMembers(rows: seq<Row>)
    ensures forall i :: 0 <= i < |rows| ==> rows[i].sect in Sects(rows)
  {
    if |rows| > 0 {
      SectsMembers(rows[..|rows| - 1]);
    }
  }

  lemma {:induction false} InsertAllMatchesView(cs: seq<string>, rows: seq<Row>)
    requires NoDup(cs)
    requires forall i :: 0 <= i < |rows| ==> rows[i].sect in cs
    ensures InsertAll(Seed(cs), rows) == CatView(cs, rows)
  {
    if |rows| == 0 {
      SeedIsEmptyView(cs);
    } else {
      var q := rows[..|rows| - 1];
      InsertAllMatchesView(cs, q);
      InsertMatchesView(cs, q, rows[|rows| - 1]);
      assert q + [rows[|rows| - 1]] == rows;
    }
  }

  /** `stat` groups exactly as `Grouping` describes: same categories, order, counts and entries. */
  lemma AggregateIsGrouping(rows: seq<Row>)
    ensures Aggregate(rows) == Grouping(rows)
  {
    SectsMembers(rows);
    InsertAllMatchesView(Distinct(Sects(rows)), rows);
  }

  // Counting invariants of the grouping.

  function EntryCount(subs: seq<SubGroup>): nat {
    if |subs| == 0 then 0 else |subs[0].entries| + EntryCount(subs[1..])
  }

  function TotalQnt(cats: seq<Category>): nat {
    if |cats| == 0 then 0 else cats[0].qnt + TotalQnt(cats[1..])
  }

  function Titles(cats: seq<Category>): seq<string> {
    if |cats| == 0 then [] else [cats[0].title] + Titles(cats[1..])
  }

  /** Every category's `:qnt` is the number of entries filed under its subcategories. */
  predicate WellCounted(cats: seq<Category>) {
    forall i :: 0 <= i < |cats| ==> cats[i].qnt == EntryCount(cats[i].subs)
  }

  lemma {:induction false} SubInsertCount(subs: seq<SubGroup>, row: Row)
    ensures EntryCount(SubInsert(subs, row)) == EntryCount(subs) + 1
  {
    if |subs| > 0 && subs[0].title != row.subsect {
      SubInsertCount(subs[1..], row);
    }
  }

  lemma {:induction false} InsertKeepsCounts(cats: seq<Category>, row: Row)
    requires WellCounted(cats)
    ensures WellCounted(Insert(cats, row))
    ensures Titles(Insert(cats, row)) == Titles(cats)
    ensures TotalQnt(Insert(cats, row)) == TotalQnt(cats) + (if row.sect in Titles(cats) then 1 else 0)
  {
    if |cats| > 0 {
      if cats[0].title == row.sect {
        SubInsertCount(cats[0].subs, row);
      } else {
        InsertKeepsCounts(cats[1..], row);
      }
    }
  }

  lemma {:induction false} SeedCounts(cs: seq<string>)
    ensures WellCounted(Seed(cs)) && Titles(Seed(cs)) == cs && TotalQnt(Seed(cs)) == 0
  {
    if |cs| > 0 {
      SeedCounts(cs[1..]);
    }
  }

  lemma {:induction false} InsertAllCounts(cs: seq<string>, rows: seq<Row>)
    requires forall i :: 0 <= i < |rows| ==> rows[i].sect in cs
    ensures WellCounted(InsertAll(Seed(cs), rows))
    ensures Titles(InsertAll(Seed(cs), rows)) == cs
    ensures TotalQnt(InsertAll(Seed(cs), rows)) == |rows|
  {
    if |rows| == 0 {
      SeedCounts(cs);
    } else {
      InsertAllCounts(cs, rows[..|rows| - 1]);
      InsertKeepsCounts(InsertAll(Seed(cs), rows[..|rows| - 1]), rows[|rows| - 1]);
    }
  }

  /**
   The reported numbers add up: each `:qnt` is the sum of its subcategory list
   lengths, the `:qnt`s sum to the number of rows, and the categories are the
   distinct sections in order of their first row.
   */
  lemma AggregateCounts(rows: seq<Row>)
    ensures WellCounted(Aggregate(rows))
    ensures TotalQnt(Aggregate(rows)) == |rows|
    ensures Titles(Aggregate(rows)) == Distinct(Sects(rows))
  {
    SectsMembers(rows);
    InsertAllCounts(Distinct(Sects(rows)), rows);
  }
}

=== FILE: assets.dfy ===
/**
 Image handling of `parse_subsect` and `stat`: the image URL is cut out of the
 card's inline style, a non-empty URL is saved as `<hash><extension>` in the
 image directory, and `stat` recovers the hash from such a file name.
 */
module Assets {
  import opened Strings

  const StylePrefix: string := "background: url("
  const StyleSuffix: string := ") no-repeat center center"
  /** The site's placeholder picture for goods without a photo. */
  const NoPhotoPath: string := "/images/no_photo_2.png"
  /** "background: url(/images/no_photo_2.png) no-repeat center center" */
  const NoPhotoStyle: string := StylePrefix + NoPhotoPath + StyleSuffix

  /** The inline style of a card whose background picture is `path`. */
  function StyleOf(path: string): string {
    StylePrefix + path + StyleSuffix
  }

  /** The `sub` chain that turns a card's inline style into the image URL. */
  function ImgUrl(style: string): string {
    Sub(Sub(Sub(style, StylePrefix, ""), StyleSuffix, ""), NoPhotoPath, "")
  }

  /** Where the picture of the good with identity `hash` is saved. */
  function ImgPath(imgDir: string, hash: string, imgUrl: string): string {
    imgDir + "/" + hash + Extname(imgUrl)
  }

  /** The hash a picture's file name stands for: the name up to its first dot. */
  function HashOfFileName(fileName: string): string {
    PrefixBefore(fileName, '.')
  }

  lemma SubAtFront(pat: string, rest: string)
    ensures Sub(pat + rest, pat, "") == rest
  {
    var s := pat + rest;
    assert s[..|pat|] == pat;
    assert IsFirstOccurrence(s, pat, 0);
    assert s[|pat|..] == rest;
    SubSpec(s, pat, "");
  }

  lemma SubAtEnd(head: string, pat: string)
    requires pat != [] && pat[0] !in head
    ensures Sub(head + pat, pat, "") == head
  {
    var s := head + pat;
    assert s[|head|..|head| + |pat|] == pat;
    forall j: nat | j < |head|
      ensures !OccursAt(s, pat, j)
    {
      assert s[j] == head[j];
      assert j + |pat| <= |s| ==> s[j..j + |pat|][0] == s[j];
    }
    assert IsFirstOccurrence(s, pat, |head|);
    assert s[..|head|] == head;
    assert s[|head| + |pat|..] == [];
    SubSpec(s, pat, "");
  }

  /**
   For a background path without a closing parenthesis the chain yields the
   path itself, with the placeholder path cut out of it.
   */
  lemma ImgUrlOfStyle(path: string)
    requires ')' !in path
    ensures ImgUrl(StyleOf(path)) == Sub(path, NoPhotoPath, "")
  {
    assert StyleOf(path) == StylePrefix + (path + StyleSuffix);
    SubAtFront(StylePrefix, path + StyleSuffix);
    assert StyleSuffix[0] == ')';
    SubAtEnd(path, StyleSuffix);
  }

  /** The placeholder style gives an empty image URL, so nothing is downloaded. */
  lemma NoPhotoGivesEmptyUrl()
    ensures ImgUrl(NoPhotoStyle) == ""
  {
    ImgUrlOfStyle(NoPhotoPath);
    SubAtFront(NoPhotoPath, "");
    assert NoPhotoPath + "" == NoPhotoPath;
  }

  /** A real picture path is kept as it is. */
  lemma PhotoUrlKept(path: string)
    requires ')' !in path && !Occurs(path, NoPhotoPath)
    ensures ImgUrl(StyleOf(path)) == path
  {
    ImgUrlOfStyle(path);
    SubSpec(path, NoPhotoPath, "");
  }

  /**
   The name `stat` sees for a saved picture gives back the hash it was saved
   under, provided the hash is not empty and has neither a dot nor a slash
   (hex digests are 64 characters with neither). An empty hash with an empty
   extension would end the path in `/`, and `File.basename` would then name
   the directory instead.
   */
  lemma {:induction false} AssetNameRoundTrip(imgDir: string, hash: string, imgUrl: string)
    requires hash != [] && '.' !in hash && '/' !in hash
    ensures Basename(ImgPath(imgDir, hash, imgUrl)) == hash + Extname(imgUrl)
    ensures HashOfFileName(Basename(ImgPath(imgDir, hash, imgUrl))) == hash
  {
    var ext := Extname(imgUrl);
    ExtnameShape(imgUrl);
    assert imgDir + "/" + hash + ext == imgDir + "/" + (hash + ext);
    assert '/' !in hash + ext && hash + ext != [];
    BasenameAfterSlash(imgDir, hash + ext);
    PrefixBeforeSuffix(hash, ext, '.');
  }
}

=== FILE: catalog.dfy ===
/**
 The catalog file: one tab-separated row per good, columns
 section | subsection | name | card URL | image URL | hash.
 The hash column is the good's identity and `@saved` lists it for every row.
 */
module Catalog {
  import opened Wrappers

  /** The part of a row `stat` files under its subsection (`r.drop(2)`). */
  datatype Entry = Entry(name: string, href: string, imgUrl: string, hash: string)

  datatype Row = Row(sect: string, subsect: string, name: string, href: string, imgUrl: string, hash: string)
  {
    function Tail(): Entry {
      Entry(name, href, imgUrl, hash)
    }
  }

  /** The hash column of every row, in file order: what `@saved` is loaded with. */
  function Hashes(rows: seq<Row>): (hs: seq<string>)
    ensures |hs| == |rows|
  {
    if |rows| == 0 then [] else Hashes(rows[..|rows| - 1]) + [rows[|rows| - 1].hash]
  }

  lemma {:induction false} HashesIndex(rows: seq<Row>)
    ensures forall i :: 0 <= i < |rows| ==> Hashes(rows)[i] == rows[i].hash
  {
    if |rows| > 0 {
      HashesIndex(rows[..|rows| - 1]);
    }
  }

  lemma HashesAppend(a: seq<Row>, b: seq<Row>)
    ensures Hashes(a + b) == Hashes(a) + Hashes(b)
  {
    if |b| > 0 {
      assert (a + b)[..|a + b| - 1] == a + b[..|b| - 1];
      HashesAppend(a, b[..|b| - 1]);
    } else {
      assert a + b == a;
    }
  }

  predicate NoDup<T(==)>(s: seq<T>) {
    forall i, j :: 0 <= i < j < |s| ==> s[i] != s[j]
  }

  /** The index of the first row whose hash column is `hash`. */
  function FirstRowWithHash(rows: seq<Row>, hash: string): (r: Option<nat>)
    ensures r.None? <==> forall i :: 0 <= i < |rows| ==> rows[i].hash != hash
    ensures r.Some? ==> r.value < |rows| && rows[r.value].hash == hash
    ensures r.Some? ==> forall i :: 0 <= i < r.value ==> rows[i].hash != hash
  {
    if |rows| == 0 then None
    else if rows[0].hash == hash then Some(0)
    else
      match FirstRowWithHash(rows[1..], hash)
      case None => None
      case Some(k) => Some(k + 1)
  }

  /** Row `k` is the first row of the file whose hash column is `hash`. */
  predicate IsFirstWithHash(rows: seq<Row>, k: nat, hash: string) {
    k < |rows| && rows[k].hash == hash && forall i :: 0 <= i < k ==> rows[i].hash != hash
  }

  /**
   What `get_row_by_hash` returns: the empty array for a hash not in `@saved`,
   the first matching row of the file, or `nil` when `@saved` knows the hash
   but no row carries it.
   */
  datatype Lookup = NotSaved | Found(row: Row) | NoRow

  function GetRowByHash(rows: seq<Row>, saved: seq<string>, hash: string): (r: Lookup)
    ensures r.NotSaved? <==> hash !in saved
    ensures r.NoRow? <==> hash in saved && forall i :: 0 <= i < |rows| ==> rows[i].hash != hash
    ensures r.Found? ==> r.row.hash == hash && exists k: nat :: IsFirstWithHash(rows, k, hash) && rows[k] == r.row
  {
    if hash !in saved then NotSaved
    else
      match FirstRowWithHash(rows, hash)
      case None => NoRow
      case Some(k) => Found(rows[k])
  }

  /** When `@saved` is the hash column of the file, a saved hash always finds its row. */
  lemma LookupOfIndexedCatalog(rows: seq<Row>, hash: string)
    ensures GetRowByHash(rows, Hashes(rows), hash).Found? <==> hash in Hashes(rows)
    ensures !GetRowByHash(rows, Hashes(rows), hash).NoRow?
  {
    HashesIndex(rows);
    if hash in Hashes(rows) {
      var i :| 0 <= i < |rows| && Hashes(rows)[i] == hash;
      assert rows[i].hash == hash;
    }
  }
}

=== FILE: crawl.dfy ===
/**
 The crawl of `PiknikParser#initialize` and `parse_subsect`: sections, then
 their subsections, then the pages of each subsection, then the product cards
 of each page. Every card gets the identity hash of section + subsection +
 name; a hash already in `@saved` is skipped, any other is appended to the
 catalog, its picture is downloaded, `@parsed` grows by one, and the
 crawl stops with `'break'` once `@parsed` reaches the quota.

 Fetching and HTML selection are replaced by the input tree; the SHA-256
 digest is the `hash` function of the configuration, about which nothing is
 assumed.
 */
module Crawl {
  import opened Catalog
  import opened Assets
  import Strings

  const MainUrl: string := "http://www.piknikvdom.ru"
  /** `@goods_qnt`: how many new goods one run accepts. */
  const GoodsQnt: nat := 50
  /** `@img_dir`. */
  const ImgDir: string := "./img"

  /** A product card: its link, the `alt` text of its picture, its inline style. */
  datatype Candidate = Candidate(href: string, name: string, style: string)

  /** One page of a subsection; a page has a next-page link exactly when another page follows it. */
  datatype Page = Page(cards: seq<Candidate>)

  datatype Subsection = Subsection(title: string, pages: seq<Page>)

  datatype Section = Section(title: string, subsections: seq<Subsection>)

  /** A card together with the section and subsection titles it was found under. */
  datatype Listing = Listing(sect: string, subsect: string, card: Candidate)

  /** A picture to fetch from `url` and store at `path`. */
  datatype Download = Download(url: string, path: string)

  /** What `parse_subsect` reports: `'break'` or anything else. */
  datatype Status = Continue | Break

  /**
   The crawl's state: the rows of the catalog file, `@saved`, `@parsed`, and
   whether the quota stopped the crawl. The pictures saved are determined by
   the rows appended (see `DownloadsFor`).
   */
  datatype State = State(rows: seq<Row>, saved: seq<string>, parsed: nat, status: Status)

  datatype Config = Config(quota: nat, imgDir: string, hash: string -> string)

  /** The identity of a card: the digest of the plain concatenation of the three titles. */
  function Key(cfg: Config, l: Listing): string {
    cfg.hash(l.sect + l.subsect + l.card.name)
  }

  /** The row written for an accepted card. */
  function RowOf(cfg: Config, l: Listing): Row {
    Row(l.sect, l.subsect, l.card.name, l.card.href, ImgUrl(l.card.style), Key(cfg, l))
  }

  /** The picture `parse_subsect` saves for an appended row with a non-empty image URL. */
  function DownloadOf(imgDir: string, row: Row): Download {
    Download(MainUrl + row.imgUrl, ImgPath(imgDir, row.hash, row.imgUrl))
  }

  /** The picture downloads caused by appending `rows`, in order: one per row with a non-empty image URL. */
  function DownloadsFor(imgDir: string, rows: seq<Row>): (ds: seq<Download>)
    ensures |ds| <= |rows|
    ensures (forall i :: 0 <= i < |rows| ==> rows[i].imgUrl == "") ==> ds == []
  {
    if |rows| == 0 then []
    else
      var last := rows[|rows| - 1];
      DownloadsFor(imgDir, rows[..|rows| - 1]) + (if last.imgUrl == "" then [] else [DownloadOf(imgDir, last)])
  }

  /** Appending one more row adds that row's download, if it has a picture, at the end. */
  lemma DownloadsForSnoc(imgDir: string, rows: seq<Row>, last: Row)
    ensures DownloadsFor(imgDir, rows + [last])
      == DownloadsFor(imgDir, rows) + (if last.imgUrl == "" then [] else [DownloadOf(imgDir, last)])
  {
    assert (rows + [last])[..|rows|] == rows;
  }

  lemma {:induction false} DownloadsForAppend(imgDir: string, a: seq<Row>, b: seq<Row>)
    decreases |b|
    ensures DownloadsFor(imgDir, a + b) == DownloadsFor(imgDir, a) + DownloadsFor(imgDir, b)
  {
    if |b| > 0 {
      var init, last := b[..|b| - 1], b[|b| - 1];
      assert b == init + [last];
      assert a + b == (a + init) + [last];
      DownloadsForSnoc(imgDir, a + init, last);
      DownloadsForSnoc(imgDir, init, last);
      DownloadsForAppend(imgDir, a, init);
    } else {
      assert a + b == a;
    }
  }

  /** Every appended row with a picture causes its download. */
  lemma DownloadsForMember(imgDir: string, rows: seq<Row>, k: nat)
    requires k < |rows| && rows[k].imgUrl != ""
    ensures DownloadOf(imgDir, rows[k]) in DownloadsFor(imgDir, rows)
  {
    var pre, post := rows[..k], rows[k + 1..];
    assert rows == (pre + [rows[k]]) + post;
    DownloadsForAppend(imgDir, pre + [rows[k]], post);
    DownloadsForSnoc(imgDir, pre, rows[k]);
  }

  /** Every download comes from an appended row with a picture. */
  lemma {:induction false} DownloadsForSources(imgDir: string, rows: seq<Row>, d: Download)
    decreases |rows|
    ensures d in DownloadsFor(imgDir, rows) ==>
      exists k :: 0 <= k < |rows| && rows[k].imgUrl != "" && d == DownloadOf(imgDir, rows[k])
  {
    if |rows| > 0 && d in DownloadsFor(imgDir, rows) {
      var init, last := rows[..|rows| - 1], rows[|rows| - 1];
      if d in DownloadsFor(imgDir, init) {
        DownloadsForSources(imgDir, init, d);
        var k :| 0 <= k < |init| && init[k].imgUrl != "" && d == DownloadOf(imgDir, init[k]);
        assert rows[k] == init[k];
      } else {
        assert last.imgUrl != "" && d == DownloadOf(imgDir, last);
      }
    }
  }

  /** A download caused by the rows after the first `n` comes from one of those rows. */
  lemma DownloadsForRowsFromSources(imgDir: string, rows: seq<Row>, n: nat, d: Download)
    requires n <= |rows|
    ensures d in DownloadsFor(imgDir, rows[n..]) ==>
      exists k :: n <= k < |rows| && rows[k].imgUrl != "" && d == DownloadOf(imgDir, rows[k])
  {
    var added := rows[n..];
    DownloadsForSources(imgDir, added, d);
    if d in DownloadsFor(imgDir, added) {
      var j :| 0 <= j < |added| && added[j].imgUrl != "" && d == DownloadOf(imgDir, added[j]);
      assert rows[n + j] == added[j];
    }
  }

  /** Each row with a picture after the first `n` causes its download. */
  lemma DownloadsForRowsFromMember(imgDir: string, rows: seq<Row>, n: nat, k: nat)
    requires n <= k < |rows| && rows[k].imgUrl != ""
    ensures DownloadOf(imgDir, rows[k]) in DownloadsFor(imgDir, rows[n..])
  {
    var added := rows[n..];
    assert added[k - n] == rows[k];
    DownloadsForMember(imgDir, added, k - n);
  }

  /** The state a run starts from: the rows already in the file, their hash column as `@saved`. */
  function Initial(rows: seq<Row>): (st: State)
    ensures st.saved == Hashes(rows) && st.parsed == 0 && st.status == Continue
  {
    State(rows, Hashes(rows), 0, Continue)
  }

  /** One card of `parse_subsect`: skipped when its hash is saved, appended otherwise. */
  function Visit(cfg: Config, st: State, l: Listing): (r: State)
    ensures Key(cfg, l) in st.saved ==> r == st
    ensures Key(cfg, l) !in st.saved ==>
      && r.rows == st.rows + [RowOf(cfg, l)]
      && r.saved == st.saved + [Key(cfg, l)]
      && r.parsed == st.parsed + 1
      && (r.status == Break <==> r.parsed >= cfg.quota)
  {
    var row := RowOf(cfg, l);
    if row.hash in st.saved then st
    else
      var parsed := st.parsed + 1;
      State(st.rows + [row], st.saved + [row.hash], parsed, if parsed < cfg.quota then Continue else Break)
  }

  /** The cards of `ls` in order, stopping after the one that reaches the quota. */
  function Fold(cfg: Config, st: State, ls: seq<Listing>): (r: State)
    decreases |ls|
    ensures st.status == Break ==> r == st
    ensures ls == [] ==> r == st
  {
    if |ls| == 0 || st.status == Break then st
    else Fold(cfg, Visit(cfg, st, ls[0]), ls[1..])
  }

  /** Folding over two runs of cards is folding over the first and then the second. */
  lemma {:induction false} FoldConcat(cfg: Config, st: State, a: seq<Listing>, b: seq<Listing>)
    decreases |a|
    ensures Fold(cfg, st, a + b) == Fold(cfg, Fold(cfg, st, a), b)
  {
    if |a| == 0 || st.status == Break {
      assert a + b == b || st.status == Break;
    } else {
      assert (a + b)[1..] == a[1..] + b;
      FoldConcat(cfg, Visit(cfg, st, a[0]), a[1..], b);
    }
  }

  /** A card with the placeholder style is appended with an empty image URL and causes no download. */
  lemma NoPhotoCardNotDownloaded(cfg: Config, l: Listing)
    requires l.card.style == NoPhotoStyle
    ensures RowOf(cfg, l).imgUrl == ""
    ensures DownloadsFor(cfg.imgDir, [RowOf(cfg, l)]) == []
  {
    NoPhotoGivesEmptyUrl();
  }

  /** A card showing a real picture causes exactly one download, to `<dir>/<hash><extension>`. */
  lemma PhotoCardDownloaded(cfg: Config, l: Listing, path: string)
    requires l.card.style == StyleOf(path)
    requires path != "" && ')' !in path && !Strings.Occurs(path, NoPhotoPath)
    ensures DownloadsFor(cfg.imgDir, [RowOf(cfg, l)])
      == [Download(MainUrl + path, cfg.imgDir + "/" + Key(cfg, l) + Strings.Extname(path))]
  {
    PhotoUrlKept(path);
    assert [RowOf(cfg, l)][..0] == [];
  }

  /** Once the quota is reached nothing later in the listing changes the state. */
  lemma FoldStopsAtBreak(cfg: Config, st: State, a: seq<Listing>, b: seq<Listing>)
    requires Fold(cfg, st, a).status == Break
    ensures Fold(cfg, st, a + b) == Fold(cfg, st, a)
  {
    FoldConcat(cfg, st, a, b);
  }

  /**
   `r` is `st` with the rows `added` appended: each is a newly parsed good and
   its hash is appended to `@saved`.
   */
  predicate ExtendsBy(st: State, r: State, added: seq<Row>) {
    && r.rows == st.rows + added
    && r.parsed == st.parsed + |added|
    && r.saved == st.saved + Hashes(added)
  }

  lemma ExtendsTransitive(a: State, b: State, c: State, ab: seq<Row>, bc: seq<Row>)
    requires ExtendsBy(a, b, ab) && ExtendsBy(b, c, bc)
    ensures ExtendsBy(a, c, ab + bc)
  {
    HashesAppend(ab, bc);
    assert c.rows == a.rows + (ab + bc);
    assert c.saved == a.saved + (Hashes(ab) + Hashes(bc));
  }

  function Added(cfg: Config, st: State, l: Listing): seq<Row> {
    if Key(cfg, l) in st.saved then [] else [RowOf(cfg, l)]
  }

  lemma VisitExtends(cfg: Config, st: State, l: Listing)
    ensures ExtendsBy(st, Visit(cfg, st, l), Added(cfg, st, l))
  {
  }

  /** The rows a crawl over `ls` appends, in order. */
  function AddedBy(cfg: Config, st: State, ls: seq<Listing>): seq<Row>
    decreases |ls|
  {
    if |ls| == 0 || st.status == Break then []
    else Added(cfg, st, ls[0]) + AddedBy(cfg, Visit(cfg, st, ls[0]), ls[1..])
  }

  /** The crawl only appends: one row per accepted card and its hash to `@saved`. */
  lemma {:induction false} FoldAppends(cfg: Config, st: State, ls: seq<Listing>)
    decreases |ls|
    ensures ExtendsBy(st, Fold(cfg, st, ls), AddedBy(cfg, st, ls))
  {
    if |ls| == 0 || st.status == Break {
      assert st.rows + [] == st.rows;
      assert st.saved + Hashes([]) == st.saved;
    } else {
      var st1 := Visit(cfg, st, ls[0]);
      VisitExtends(cfg, st, ls[0]);
      FoldAppends(cfg, st1, ls[1..]);
      ExtendsTransitive(st, st1, Fold(cfg, st1, ls[1..]), Added(cfg, st, ls[0]), AddedBy(cfg, st1, ls[1..]));
    }
  }

  /** Every row the crawl appends has a hash that was not in `@saved` when it started. */
  lemma {:induction false} AddedAreNew(cfg: Config, st: State, ls: seq<Listing>)
    decreases |ls|
    ensures forall i :: 0 <= i < |AddedBy(cfg, st, ls)| ==> AddedBy(cfg, st, ls)[i].hash !in st.saved
  {
    if |ls| > 0 && st.status == Continue {
      var st1 := Visit(cfg, st, ls[0]);
      var first: seq<Row>, rest: seq<Row> := Added(cfg, st, ls[0]), AddedBy(cfg, st1, ls[1..]);
      AddedAreNew(cfg, st1, ls[1..]);
      assert forall h :: h in st.saved ==> h in st1.saved;
      assert AddedBy(cfg, st, ls) == first + rest;
      forall i | 0 <= i < |first + rest|
        ensures (first + rest)[i].hash !in st.saved
      {
        if i >= |first| {
          assert (first + rest)[i] == rest[i - |first|];
        }
      }
    }
  }

  /** `@saved` stays the hash column of the catalog file. */
  lemma FoldKeepsIndex(cfg: Config, st: State, ls: seq<Listing>)
    requires st.saved == Hashes(st.rows)
    ensures Fold(cfg, st, ls).saved == Hashes(Fold(cfg, st, ls).rows)
  {
    FoldAppends(cfg, st, ls);
    HashesAppend(st.rows, AddedBy(cfg, st, ls));
  }

  /** A duplicate-free `@saved` stays duplicate-free. */
  lemma {:induction false} FoldKeepsNoDup(cfg: Config, st: State, ls: seq<Listing>)
    decreases |ls|
    requires NoDup(st.saved)
    ensures NoDup(Fold(cfg, st, ls).saved)
  {
    if |ls| > 0 && st.status == Continue {
      FoldKeepsNoDup(cfg, Visit(cfg, st, ls[0]), ls[1..]);
    }
  }

  /**
   The quota discipline of `return 'break' unless @parsed < @goods_qnt`:
   `@parsed` never passes the quota and the crawl is stopped exactly when it
   has reached it.
   */
  predicate QuotaInv(cfg: Config, st: State) {
    st.parsed <= cfg.quota && (st.status == Break <==> st.parsed == cfg.quota)
  }

  lemma {:induction false} FoldKeepsQuota(cfg: Config, st: State, ls: seq<Listing>)
    decreases |ls|
    requires QuotaInv(cfg, st)
    ensures QuotaInv(cfg, Fold(cfg, st, ls))
  {
    if |ls| > 0 && st.status == Continue {
      FoldKeepsQuota(cfg, Visit(cfg, st, ls[0]), ls[1..]);
    }
  }

  /** A crawl that was not stopped has seen every card: each card's hash ends up in `@saved`. */
  lemma {:induction false} FoldExhaustive(cfg: Config, st: State, ls: seq<Listing>)
    decreases |ls|
    requires Fold(cfg, st, ls).status == Continue
    ensures forall i :: 0 <= i < |ls| ==> Key(cfg, ls[i]) in Fold(cfg, st, ls).saved
  {
    if |ls| > 0 {
      var st1 := Visit(cfg, st, ls[0]);
      var r := Fold(cfg, st, ls);
      FoldExhaustive(cfg, st1, ls[1..]);
      FoldAppends(cfg, st1, ls[1..]);
      assert Key(cfg, ls[0]) in st1.saved;
      assert r.saved == st1.saved + Hashes(AddedBy(cfg, st1, ls[1..]));
      forall i | 0 <= i < |ls|
        ensures Key(cfg, ls[i]) in r.saved
      {
        if i > 0 {
          assert ls[i] == ls[1..][i - 1];
        }
      }
    }
  }

  /** The hashes of the cards in `ls` that `saved` does not know yet. */
  function FreshKeys(cfg: Config, ls: seq<Listing>, saved: seq<string>): set<string> {
    set i | 0 <= i < |ls| && Key(cfg, ls[i]) !in saved :: Key(cfg, ls[i])
  }

  lemma SetOfSeqCard(s: seq<string>)
    ensures |set x | x in s| <= |s|
  {
    if |s| > 0 {
      SetOfSeqCard(s[1..]);
      assert (set x | x in s) == (set x | x in s[1..]) + {s[0]};
    }
  }

  lemma SubsetCard(a: set<string>, b: set<string>)
    requires a <= b
    ensures |a| <= |b|
  {
    assert b == a + (b - a);
  }

  /**
   When the cards hold at least as many new identities as the quota still
   allows, the crawl reaches the quota exactly.
   */
  lemma FoldReachesQuota(cfg: Config, st: State, ls: seq<Listing>)
    requires QuotaInv(cfg, st)
    requires cfg.quota - st.parsed <= |FreshKeys(cfg, ls, st.saved)|
    ensures Fold(cfg, st, ls).status == Break
    ensures Fold(cfg, st, ls).parsed == cfg.quota
  {
    var r := Fold(cfg, st, ls);
    FoldKeepsQuota(cfg, st, ls);
    if r.status == Continue {
      FoldExhaustive(cfg, st, ls);
      FoldAppends(cfg, st, ls);
      var added := Hashes(AddedBy(cfg, st, ls));
      assert |added| == r.parsed - st.parsed;
      forall k | k in FreshKeys(cfg, ls, st.saved)
        ensures k in (set x | x in added)
      {
        var i :| 0 <= i < |ls| && Key(cfg, ls[i]) !in st.saved && Key(cfg, ls[i]) == k;
        assert k in r.saved;
      }
      SubsetCard(FreshKeys(cfg, ls, st.saved), set x | x in added);
      SetOfSeqCard(added);
      assert false;
    }
  }

  /** With no separator between the titles, ("Ab", "c") and ("A", "bc") name the same good. */
  lemma ConcatenationCollision(cfg: Config, st: State, name: string, c1: Candidate, c2: Candidate)
    requires c1.name == name && c2.name == name
    ensures var st1 := Visit(cfg, st, Listing("Ab", "c", c1));
      Visit(cfg, st1, Listing("A", "bc", c2)) == st1
  {
    assert "Ab" + "c" + name == "A" + "bc" + name;
  }

  // The traversal of the site, written as the source nests it.

  /** The cards of one page, in order (the `each` of `parse_subsect`). */
  function VisitCards(cfg: Config, st: State, sect: string, subsect: string, cards: seq<Candidate>): State
    decreases |cards|
  {
    if |cards| == 0 || st.status == Break then st
    else VisitCards(cfg, Visit(cfg, st, Listing(sect, subsect, cards[0])), sect, subsect, cards[1..])
  }

  /** `parse_subsect`: a page, then, unless the quota stopped it, the page its next link leads to. */
  function VisitPages(cfg: Config, st: State, sect: string, subsect: string, pages: seq<Page>): State
    decreases |pages|
  {
    if |pages| == 0 then st
    else
      var st1 := VisitCards(cfg, st, sect, subsect, pages[0].cards);
      if st1.status == Break || |pages| == 1 then st1
      else VisitPages(cfg, st1, sect, subsect, pages[1..])
  }

  /** The subsections of one section; a `'break'` ends the whole crawl. */
  function VisitSubsections(cfg: Config, st: State, sect: string, subs: seq<Subsection>): State
    decreases |subs|
  {
    if |subs| == 0 then st
    else
      var st1 := VisitPages(cfg, st, sect, subs[0].title, subs[0].pages);
      if st1.status == Break then st1
      else VisitSubsections(cfg, st1, sect, subs[1..])
  }

  /** The sections of the catalog page, in order. */
  function VisitSections(cfg: Config, st: State, secs: seq<Section>): State
    decreases |secs|
  {
    if |secs| == 0 then st
    else
      var st1 := VisitSubsections(cfg, st, secs[0].title, secs[0].subsections);
      if st1.status == Break then st1
      else VisitSections(cfg, st1, secs[1..])
  }

  // The same traversal as one flat listing.

  function CardListings(sect: string, subsect: string, cards: seq<Candidate>): (ls: seq<Listing>)
    ensures |ls| == |cards|
    ensures forall i :: 0 <= i < |cards| ==> ls[i] == Listing(sect, subsect, cards[i])
  {
    if |cards| == 0 then [] else [Listing(sect, subsect, cards[0])] + CardListings(sect, subsect, cards[1..])
  }

  function PageListings(sect: string, subsect: string, pages: seq<Page>): seq<Listing> {
    if |pages| == 0 then [] else CardListings(sect, subsect, pages[0].cards) + PageListings(sect, subsect, pages[1..])
  }

  function SubsectionListings(sect: string, subs: seq<Subsection>): seq<Listing> {
    if |subs| == 0 then [] else PageListings(sect, subs[0].title, subs[0].pages) + SubsectionListings(sect, subs[1..])
  }

  /** Every card of the site in crawl order: sections, subsections, pages, cards. */
  function Schedule(secs: seq<Section>): seq<Listing> {
    if |secs| == 0 then [] else SubsectionListings(secs[0].title, secs[0].subsections) + Schedule(secs[1..])
  }

  lemma {:induction false} VisitCardsIsFold(cfg: Config, st: State, sect: string, subsect: string, cards: seq<Candidate>)
    decreases |cards|
    ensures VisitCards(cfg, st, sect, subsect, cards) == Fold(cfg, st, CardListings(sect, subsect, cards))
  {
    if |cards| > 0 && st.status == Continue {
      VisitCardsIsFold(cfg, Visit(cfg, st, Listing(sect, subsect, cards[0])), sect, subsect, cards[1..]);
    }
  }

  lemma {:induction false} VisitPagesIsFold(cfg: Config, st: State, sect: string, subsect: string, pages: seq<Page>)
    decreases |pages|
    ensures VisitPages(cfg, st, sect, subsect, pages) == Fold(cfg, st, PageListings(sect, subsect, pages))
  {
    if |pages| > 0 {
      var first := CardListings(sect, subsect, pages[0].cards);
      VisitCardsIsFold(cfg, st, sect, subsect, pages[0].cards);
      FoldConcat(cfg, st, first, PageListings(sect, subsect, pages[1..]));
      if |pages| > 1 {
        VisitPagesIsFold(cfg, Fold(cfg, st, first), sect, subsect, pages[1..]);
      }
    }
  }

  lemma {:induction false} VisitSubsectionsIsFold(cfg: Config, st: State, sect: string, subs: seq<Subsection>)
    decreases |subs|
    ensures VisitSubsections(cfg, st, sect, subs) == Fold(cfg, st, SubsectionListings(sect, subs))
  {
    if |subs| > 0 {
      var first := PageListings(sect, subs[0].title, subs[0].pages);
      VisitPagesIsFold(cfg, st, sect, subs[0].title, subs[0].pages);
      FoldConcat(cfg, st, first, SubsectionListings(sect, subs[1..]));
      VisitSubsectionsIsFold(cfg, Fold(cfg, st, first), sect, subs[1..]);
    }
  }

  /** The nested crawl visits exactly the flat schedule, in order, and stops where the fold stops. */
  lemma {:induction false} VisitSectionsIsFold(cfg: Config, st: State, secs: seq<Section>)
    decreases |secs|
    ensures VisitSections(cfg, st, secs) == Fold(cfg, st, Schedule(secs))
  {
    if |secs| > 0 {
      var first := SubsectionListings(secs[0].title, secs[0].subsections);
      VisitSubsectionsIsFold(cfg, st, secs[0].title, secs[0].subsections);
      FoldConcat(cfg, st, first, Schedule(secs[1..]));
      VisitSectionsIsFold(cfg, Fold(cfg, st, first), secs[1..]);
    }
  }

  /** A whole crawl: the catalog file's rows, then the site, with the source's quota and image directory. */
  function Run(hash: string -> string, catalog: seq<Row>, secs: seq<Section>): State {
    VisitSections(Config(GoodsQnt, ImgDir, hash), Initial(catalog), secs)
  }

  /** What a run guarantees about the catalog, `@saved`, `@parsed` and the quota. */
  lemma RunProperties(hash: string -> string, catalog: seq<Row>, secs: seq<Section>)
    ensures var r := Run(hash, catalog, secs);
      && |catalog| <= |r.rows|
      && r.rows[..|catalog|] == catalog
      && r.saved == Hashes(r.rows)
      && r.parsed == |r.rows| - |catalog| <= GoodsQnt
      && (r.status == Break <==> r.parsed == GoodsQnt)
      && (NoDup(Hashes(catalog)) ==> NoDup(r.saved))
  {
    var cfg := Config(GoodsQnt, ImgDir, hash);
    var st := Initial(catalog);
    VisitSectionsIsFold(cfg, st, secs);
    FoldAppends(cfg, st, Schedule(secs));
    FoldKeepsIndex(cfg, st, Schedule(secs));
    FoldKeepsQuota(cfg, st, Schedule(secs));
    if NoDup(Hashes(catalog)) {
      FoldKeepsNoDup(cfg, st, Schedule(secs));
    }
  }

  /** A good already in the catalog file is never appended again, wherever the crawl meets it. */
  lemma RunAddsOnlyNew(hash: string -> string, catalog: seq<Row>, secs: seq<Section>)
    ensures var r := Run(hash, catalog, secs);
      forall k :: |catalog| <= k < |r.rows| ==> r.rows[k].hash !in Hashes(catalog)
  {
    var cfg := Config(GoodsQnt, ImgDir, hash);
    var st := Initial(catalog);
    var ls := Schedule(secs);
    var added := AddedBy(cfg, st, ls);
    VisitSectionsIsFold(cfg, st, secs);
    FoldAppends(cfg, st, ls);
    AddedAreNew(cfg, st, ls);
    var r := Run(hash, catalog, secs);
    assert r.rows == catalog + added;
    forall k | |catalog| <= k < |r.rows|
      ensures r.rows[k].hash !in Hashes(catalog)
    {
      assert r.rows[k] == added[k - |catalog|];
    }
  }

  /**
   A run that was not stopped by the quota has recorded every card of the site;
   and a site with at least `GoodsQnt` new identities fills the quota exactly.
   */
  lemma RunCoverage(hash: string -> string, catalog: seq<Row>, secs: seq<Section>)
    ensures var r := Run(hash, catalog, secs);
      var ls := Schedule(secs);
      && (r.status == Continue ==> forall i :: 0 <= i < |ls| ==> Key(Config(GoodsQnt, ImgDir, hash), ls[i]) in r.saved)
      && (GoodsQnt <= |FreshKeys(Config(GoodsQnt, ImgDir, hash), ls, Hashes(catalog))| ==> r.parsed == GoodsQnt)
  {
    var cfg := Config(GoodsQnt, ImgDir, hash);
    var st := Initial(catalog);
    var ls := Schedule(secs);
    VisitSectionsIsFold(cfg, st, secs);
    if Fold(cfg, st, ls).status == Continue {
      FoldExhaustive(cfg, st, ls);
    }
    if GoodsQnt <= |FreshKeys(cfg, ls, st.saved)| {
      FoldReachesQuota(cfg, st, ls);
    }
  }
}

=== FILE: parser.dfy ===
/**
 One run of `PiknikParser`: the crawl over the catalog file and the site,
 followed by `stat` over the resulting file, `@saved` and the image directory.
 */
module Parser {
  import opened Wrappers
  import opened Catalog
  import opened Crawl
  import opened Stats

  /** The pictures a run saves: one per appended row with a non-empty image URL, in crawl order. */
  function RunDownloads(hash: string -> string, catalog: seq<Row>, secs: seq<Section>): (ds: seq<Download>)
    ensures |ds| <= GoodsQnt
  {
    var r := Run(hash, catalog, secs);
    RunProperties(hash, catalog, secs);
    DownloadsFor(ImgDir, r.rows[|catalog|..])
  }

  /**
   A run saves a picture exactly for each newly appended row whose image URL
   is not empty, to the path named after that row's hash.
   */
  lemma RunDownloadsExact(hash: string -> string, catalog: seq<Row>, secs: seq<Section>, d: Download)
    ensures var r := Run(hash, catalog, secs);
      d in RunDownloads(hash, catalog, secs) <==>
        exists k :: |catalog| <= k < |r.rows| && r.rows[k].imgUrl != "" && d == DownloadOf(ImgDir, r.rows[k])
  {
    var r := Run(hash, catalog, secs);
    RunProperties(hash, catalog, secs);
    var ds := RunDownloads(hash, catalog, secs);
    assert ds == DownloadsFor(ImgDir, r.rows[|catalog|..]);
    if d in ds {
      DownloadsForRowsFromSources(ImgDir, r.rows, |catalog|, d);
    }
    if exists k :: |catalog| <= k < |r.rows| && r.rows[k].imgUrl != "" && d == DownloadOf(ImgDir, r.rows[k]) {
      var k :| |catalog| <= k < |r.rows| && r.rows[k].imgUrl != "" && d == DownloadOf(ImgDir, r.rows[k]);
      DownloadsForRowsFromMember(ImgDir, r.rows, |catalog|, k);
    }
  }

  /** The crawl, then the report; the image directory listing is an input. */
  function Session(hash: string -> string, catalog: seq<Row>, secs: seq<Section>, files: seq<ImageFile>): Result<Report, Fault> {
    var r := Run(hash, catalog, secs);
    Stat(r.rows, r.saved, files)
  }

  /**
   After a crawl `stat` always completes, counts the old rows plus the newly
   parsed goods, and groups every row of the file.
   */
  lemma SessionReports(hash: string -> string, catalog: seq<Row>, secs: seq<Section>, files: seq<ImageFile>)
    ensures var r := Run(hash, catalog, secs);
      var rep := Session(hash, catalog, secs, files);
      && rep.Success?
      && rep.value.goods == |catalog| + r.parsed
      && r.parsed <= GoodsQnt
      && (rep.value.goods > 0 ==> rep.value.catalog == Some(Aggregation.Aggregate(r.rows)))
  {
    var r := Run(hash, catalog, secs);
    RunProperties(hash, catalog, secs);
    StatOfIndexedCatalog(r.rows, files);
  }

  /**
   A good already in the catalog file is not added again when the crawl finds
   it: visited first, its card leaves the state unchanged, and wherever the
   crawl meets it no new row carries its identity.
   */
  lemma RediscoveredGoodSkipped(hash: string -> string, catalog: seq<Row>, sect: string, subsect: string, c: Candidate, secs: seq<Section>)
    requires exists k :: 0 <= k < |catalog| && catalog[k].hash == hash(sect + subsect + c.name)
    ensures var cfg := Config(GoodsQnt, ImgDir, hash);
      Visit(cfg, Initial(catalog), Listing(sect, subsect, c)) == Initial(catalog)
    ensures var r := Run(hash, catalog, secs);
      forall j :: |catalog| <= j < |r.rows| ==> r.rows[j].hash != hash(sect + subsect + c.name)
  {
    HashesIndex(catalog);
    RunAddsOnlyNew(hash, catalog, secs);
  }
}

=== FILE: stats.dfy ===
/**
 The rest of `stat`: the goods count, the composition of the catalog, the
 share of goods with a picture, and the smallest and largest picture resolved
 back to the good they show. The image directory is the list of picture files
 the glob found, with their sizes; the catalog is the rows of the file.
 */
module Stats {
  import opened Wrappers
  import opened Strings
  import opened Catalog
  import opened Aggregation
  import opened Assets

  /** A picture file as listed by the glob, with `File.size`. */
  datatype ImageFile = ImageFile(path: string, size: nat)

  /** The `img_file_info` hash: size, hash, file name and the good's name (`nil` as `None`). */
  datatype FileInfo = FileInfo(size: nat, hash: string, name: string, goods: Option<string>)

  /** The picture figures: count, integer coverage percentage, the extreme files, the byte total behind the average. */
  datatype ImageStats = ImageStats(count: nat, coverage: nat, minFile: FileInfo, maxFile: FileInfo, totalSize: nat)

  /** What `stat` reports: the goods count, and, when there are goods, the composition and, when there are pictures, the picture figures. */
  datatype Report = Report(goods: nat, catalog: Option<seq<Category>>, images: Option<ImageStats>)

  /** `nil[2]` raises when `@saved` knows a hash that no row of the file carries. */
  datatype Fault = NoRowForHash(hash: string)

  /** `100 * images / saved` in Ruby integer arithmetic (both operands positive, so it rounds down). */
  function Coverage(images: nat, saved: nat): (r: nat)
    requires saved > 0
    ensures r * saved <= 100 * images < (r + 1) * saved
    ensures images <= saved ==> r <= 100
  {
    100 * images / saved
  }

  function Sizes(files: seq<ImageFile>): (r: seq<nat>)
    ensures |r| == |files|
    ensures forall i :: 0 <= i < |files| ==> r[i] == files[i].size
  {
    if |files| == 0 then [] else [files[0].size] + Sizes(files[1..])
  }

  /** `img_size_list.min`. */
  function MinOf(xs: seq<nat>): (m: nat)
    requires |xs| > 0
    ensures m in xs
    ensures forall i :: 0 <= i < |xs| ==> m <= xs[i]
  {
    if |xs| == 1 then xs[0]
    else
      var rest := MinOf(xs[1..]);
      if xs[0] <= rest then xs[0] else rest
  }

  /** `img_size_list.max`. */
  function MaxOf(xs: seq<nat>): (m: nat)
    requires |xs| > 0
    ensures m in xs
    ensures forall i :: 0 <= i < |xs| ==> xs[i] <= m
  {
    if |xs| == 1 then xs[0]
    else
      var rest := MaxOf(xs[1..]);
      if xs[0] >= rest then xs[0] else rest
  }

  /** `img_size_list.index(v)`: the first position holding `v`. */
  function FirstIndex(xs: seq<nat>, v: nat): (i: nat)
    requires v in xs
    ensures i < |xs| && xs[i] == v
    ensures forall j :: 0 <= j < i ==> xs[j] != v
  {
    if xs[0] == v then 0 else 1 + FirstIndex(xs[1..], v)
  }

  /** `inject{|sum, el| sum += el}`: the total of the sizes. */
  function Sum(xs: seq<nat>): nat {
    if |xs| == 0 then 0 else xs[0] + Sum(xs[1..])
  }

  /** A total of sizes that are each at least `lo` and at most `hi` lies between `lo` and `hi` times their number. */
  lemma {:induction false} SumBetween(xs: seq<nat>, lo: nat, hi: nat)
    requires forall i :: 0 <= i < |xs| ==> lo <= xs[i] <= hi
    ensures lo * |xs| <= Sum(xs) <= hi * |xs|
  {
    if |xs| > 0 {
      assert forall i :: 0 <= i < |xs[1..]| ==> xs[1..][i] == xs[i + 1];
      SumBetween(xs[1..], lo, hi);
      assert lo * |xs| == lo + lo * |xs[1..]|;
      assert hi * |xs| == hi + hi * |xs[1..]|;
    }
  }

  /** The average `stat` prints lies between the smallest and the largest picture: the total is between `min * count` and `max * count`. */
  lemma AverageBetweenExtremes(xs: seq<nat>)
    requires |xs| > 0
    ensures MinOf(xs) * |xs| <= Sum(xs) <= MaxOf(xs) * |xs|
  {
    SumBetween(xs, MinOf(xs), MaxOf(xs));
  }

  /**
   `img_file_info` for the file at position `i`: its name, the hash before the
   first dot, and the name column of the row `get_row_by_hash` finds.
   */
  function FileInfoAt(rows: seq<Row>, saved: seq<string>, files: seq<ImageFile>, i: nat): (r: Result<FileInfo, Fault>)
    requires i < |files|
    ensures r.Success? ==> r.value.size == files[i].size && r.value.name == Basename(files[i].path)
    ensures r.Success? ==> r.value.hash == HashOfFileName(r.value.name)
    ensures r.Success? ==> (r.value.goods.None? <==> r.value.hash !in saved)
    ensures r.Success? && r.value.goods.Some? ==>
      exists k: nat :: IsFirstWithHash(rows, k, r.value.hash) && rows[k].name == r.value.goods.value
    ensures r.Failure? <==> GetRowByHash(rows, saved, HashOfFileName(Basename(files[i].path))).NoRow?
  {
    var name := Basename(files[i].path);
    var hash := HashOfFileName(name);
    match GetRowByHash(rows, saved, hash)
    case NotSaved => Success(FileInfo(files[i].size, hash, name, None))
    case Found(row) => Success(FileInfo(files[i].size, hash, name, Some(row.name)))
    case NoRow => Failure(NoRowForHash(hash))
  }

  /** Position `i` holds the smallest size and no earlier position holds it. */
  predicate IsFirstMinimum(xs: seq<nat>, i: nat) {
    i < |xs| && (forall j :: 0 <= j < |xs| ==> xs[i] <= xs[j]) && (forall j :: 0 <= j < i ==> xs[i] < xs[j])
  }

  /** Position `i` holds the largest size and no earlier position holds it. */
  predicate IsFirstMaximum(xs: seq<nat>, i: nat) {
    i < |xs| && (forall j :: 0 <= j < |xs| ==> xs[j] <= xs[i]) && (forall j :: 0 <= j < i ==> xs[j] < xs[i])
  }

  /** `img_size_list.index(img_size_list.min)`: the first of the smallest files in listing order. */
  function MinIndex(xs: seq<nat>): (i: nat)
    requires |xs| > 0
    ensures IsFirstMinimum(xs, i)
  {
    FirstIndex(xs, MinOf(xs))
  }

  /** `img_size_list.index(img_size_list.max)`: the first of the largest files in listing order. */
  function MaxIndex(xs: seq<nat>): (i: nat)
    requires |xs| > 0
    ensures IsFirstMaximum(xs, i)
  {
    FirstIndex(xs, MaxOf(xs))
  }

  /** The picture figures, once there is at least one good and at least one picture. */
  function ImageFigures(rows: seq<Row>, saved: seq<string>, files: seq<ImageFile>): (r: Result<ImageStats, Fault>)
    requires |saved| > 0 && |files| > 0
    ensures r.Success? ==> r.value.count == |files| && r.value.coverage == Coverage(|files|, |saved|)
    ensures r.Success? ==> r.value.totalSize == Sum(Sizes(files))
    ensures r.Success? ==> r.value.minFile.name == Basename(files[MinIndex(Sizes(files))].path)
    ensures r.Success? ==> r.value.maxFile.name == Basename(files[MaxIndex(Sizes(files))].path)
    ensures r.Success? ==> Success(r.value.minFile) == FileInfoAt(rows, saved, files, MinIndex(Sizes(files)))
    ensures r.Success? ==> Success(r.value.maxFile) == FileInfoAt(rows, saved, files, MaxIndex(Sizes(files)))
    ensures r.Failure? <==>
      || FileInfoAt(rows, saved, files, MinIndex(Sizes(files))).Failure?
      || FileInfoAt(rows, saved, files, MaxIndex(Sizes(files))).Failure?
  {
    var sizes := Sizes(files);
    match FileInfoAt(rows, saved, files, MinIndex(sizes))
    case Failure(e) => Failure(e)
    case Success(minInfo) =>
      match FileInfoAt(rows, saved, files, MaxIndex(sizes))
      case Failure(e) => Failure(e)
      case Success(maxInfo) => Success(ImageStats(|files|, Coverage(|files|, |saved|), minInfo, maxInfo, Sum(sizes)))
  }

  /** `stat` over the rows of the catalog file, `@saved` and the pictures found. */
  function Stat(rows: seq<Row>, saved: seq<string>, files: seq<ImageFile>): (r: Result<Report, Fault>)
    ensures |saved| == 0 ==> r == Success(Report(0, None, None))
    ensures r.Success? ==> r.value.goods == |saved|
    ensures r.Success? && |saved| > 0 ==> r.value.catalog == Some(Aggregate(rows))
    ensures r.Success? ==> (r.value.images.Some? <==> |saved| > 0 && |files| > 0)
    ensures r.Failure? ==> |saved| > 0 && |files| > 0
    ensures |saved| > 0 && |files| > 0 ==>
      && (r.Failure? <==> ImageFigures(rows, saved, files).Failure?)
      && (r.Success? ==> r.value.images == Some(ImageFigures(rows, saved, files).value))
  {
    if |saved| == 0 then Success(Report(0, None, None))
    else
      var catalog := Aggregate(rows);
      if |files| == 0 then Success(Report(|saved|, Some(catalog), None))
      else
        match ImageFigures(rows, saved, files)
        case Failure(e) => Failure(e)
        case Success(images) => Success(Report(|saved|, Some(catalog), Some(images)))
  }

  /** When `@saved` is the hash column of the file, `stat` never reaches `nil[2]`. */
  lemma StatOfIndexedCatalog(rows: seq<Row>, files: seq<ImageFile>)
    ensures Stat(rows, Hashes(rows), files).Success?
  {
    if |rows| > 0 && |files| > 0 {
      var sizes := Sizes(files);
      var lo := MinIndex(sizes);
      var hi := MaxIndex(sizes);
      LookupOfIndexedCatalog(rows, HashOfFileName(Basename(files[lo].path)));
      LookupOfIndexedCatalog(rows, HashOfFileName(Basename(files[hi].path)));
    }
  }

  /**
   A picture saved by the crawl resolves to its good: its file name gives back
   the hash, and the lookup finds the first row with that hash.
   */
  lemma SavedPictureResolves(rows: seq<Row>, k: nat, imgDir: string)
    requires k < |rows| && rows[k].imgUrl != ""
    requires rows[k].hash != [] && '.' !in rows[k].hash && '/' !in rows[k].hash
    ensures var info := FileInfoAt(rows, Hashes(rows), [ImageFile(ImgPath(imgDir, rows[k].hash, rows[k].imgUrl), 0)], 0);
      info.Success? && info.value.hash == rows[k].hash && info.value.goods.Some?
  {
    AssetNameRoundTrip(imgDir, rows[k].hash, rows[k].imgUrl);
    HashesIndex(rows);
    LookupOfIndexedCatalog(rows, rows[k].hash);
  }
}

=== FILE: strings.dfy ===
/**
 Ruby string operations the scraper relies on: `String#sub` with a literal
 pattern, `File.basename`, `File.extname` and `split('.')[0]`.
 */
module Strings {
  import opened Wrappers

  /** `pat` occurs in `s` starting at index `i`. */
  predicate OccursAt(s: string, pat: string, i: nat) {
    i + |pat| <= |s| && s[i..i + |pat|] == pat
  }

  /** `i` is the leftmost occurrence of `pat` in `s`. */
  predicate IsFirstOccurrence(s: string, pat: string, i: nat) {
    OccursAt(s, pat, i) && forall j: nat :: j < i ==> !OccursAt(s, pat, j)
  }

  predicate Occurs(s: string, pat: string) {
    exists i: nat :: i <= |s| && OccursAt(s, pat, i)
  }

  /** `r` is a suffix of `s`. */
  predicate IsSuffix(r: string, s: string) {
    |r| <= |s| && s[|s| - |r|..] == r
  }

  /** The leftmost occurrence of `pat` in `s` at or after index `k`. */
  function IndexFrom(s: string, pat: string, k: nat): (r: Option<nat>)
    decreases |s| - k
    ensures r.Some? ==> k <= r.value && OccursAt(s, pat, r.value)
    ensures r.Some? ==> forall j: nat :: k <= j < r.value ==> !OccursAt(s, pat, j)
    ensures r.None? ==> forall j: nat :: k <= j ==> !OccursAt(s, pat, j)
  {
    if k + |pat| > |s| then None
    else if s[k..k + |pat|] == pat then Some(k)
    else IndexFrom(s, pat, k + 1)
  }

  /** The leftmost occurrence of `pat` in `s`, if any; `IndexOfSpec` states it. */
  function IndexOf(s: string, pat: string): Option<nat> {
    IndexFrom(s, pat, 0)
  }

  /** `IndexOf` finds the leftmost occurrence, and finds none exactly when there is none. */
  lemma IndexOfSpec(s: string, pat: string)
    ensures IndexOf(s, pat).Some? ==> IsFirstOccurrence(s, pat, IndexOf(s, pat).value)
    ensures IndexOf(s, pat).None? <==> !Occurs(s, pat)
  {
  }

  lemma FirstOccurrenceUnique(s: string, pat: string, i: nat, j: nat)
    requires IsFirstOccurrence(s, pat, i) && IsFirstOccurrence(s, pat, j)
    ensures i == j
  {
  }

  lemma SuffixTransitive(a: string, b: string, c: string)
    requires IsSuffix(a, b) && IsSuffix(b, c)
    ensures IsSuffix(a, c)
  {
    assert c[|c| - |a|..] == c[|c| - |b|..][|b| - |a|..];
  }

  /**
   Ruby's `s.sub(pat, rep)` for a literal pattern: the leftmost occurrence of
   `pat` is replaced by `rep`; without an occurrence the string is unchanged.
   What this means is stated by `SubSpec`.
   */
  function Sub(s: string, pat: string, rep: string): string {
    match IndexOf(s, pat)
    case None => s
    case Some(i) => s[..i] + rep + s[i + |pat|..]
  }

  /** `Sub` leaves a string without the pattern alone and otherwise replaces exactly its leftmost occurrence. */
  lemma SubSpec(s: string, pat: string, rep: string)
    ensures !Occurs(s, pat) ==> Sub(s, pat, rep) == s
    ensures forall i: nat :: IsFirstOccurrence(s, pat, i) ==> Sub(s, pat, rep) == s[..i] + rep + s[i + |pat|..]
  {
    IndexOfSpec(s, pat);
    match IndexOf(s, pat)
    case None =>
    case Some(i) =>
      forall j: nat | IsFirstOccurrence(s, pat, j)
        ensures Sub(s, pat, rep) == s[..j] + rep + s[j + |pat|..]
      {
        FirstOccurrenceUnique(s, pat, i, j);
      }
  }

  /** The index of the last `c` in `s`, if any. */
  function LastIndexOfChar(s: string, c: char): (r: Option<nat>)
    ensures r.None? <==> c !in s
    ensures r.Some? ==> r.value < |s| && s[r.value] == c && c !in s[r.value + 1..]
  {
    if |s| == 0 then None
    else if s[|s| - 1] == c then Some(|s| - 1)
    else
      var r := LastIndexOfChar(s[..|s| - 1], c);
      assert s == s[..|s| - 1] + [s[|s| - 1]];
      r
  }

  /** The index of the first `c` in `s`, if any. */
  function FirstIndexOfChar(s: string, c: char): (r: Option<nat>)
    ensures r.None? <==> c !in s
    ensures r.Some? ==> r.value < |s| && s[r.value] == c && c !in s[..r.value]
  {
    if |s| == 0 then None
    else if s[0] == c then Some(0)
    else
      match FirstIndexOfChar(s[1..], c)
      case None => None
      case Some(i) =>
        assert s[..i + 1] == [s[0]] + s[1..][..i];
        Some(i + 1)
  }

  /** The path without its trailing separators. */
  function StripTrailingSlashes(s: string): (r: string)
    ensures |r| <= |s| && r == s[..|r|]
    ensures r == [] || r[|r| - 1] != '/'
    ensures forall i :: |r| <= i < |s| ==> s[i] == '/'
  {
    if |s| > 0 && s[|s| - 1] == '/' then StripTrailingSlashes(s[..|s| - 1]) else s
  }

  /**
   `File.basename` on a POSIX system: trailing separators are ignored and the
   last component is kept; a path made only of separators gives `"/"`.
   */
  function Basename(s: string): (r: string)
    ensures var t := StripTrailingSlashes(s);
      t == [] ==> r == (if s == [] then [] else "/")
    ensures var t := StripTrailingSlashes(s);
      t != [] ==> r != [] && '/' !in r && IsSuffix(r, t) && (|r| == |t| || t[|t| - |r| - 1] == '/')
  {
    var t := StripTrailingSlashes(s);
    if t == [] then (if s == [] then [] else "/")
    else
      match LastIndexOfChar(t, '/')
      case None => t
      case Some(i) => t[i + 1..]
  }

  lemma BasenameAfterSlash(dir: string, name: string)
    requires name != [] && '/' !in name
    ensures Basename(dir + "/" + name) == name
  {
    var s := dir + "/" + name;
    assert s[|s| - 1] == name[|name| - 1];
    assert StripTrailingSlashes(s) == s;
    assert s[|dir|] == '/';
    assert s[|dir| + 1..] == name;
    assert forall k :: |dir| < k < |s| ==> s[k] == name[k - |dir| - 1];
  }

  /** A trailing separator changes neither the basename of a non-empty path nor the extension of any path. */
  lemma TrailingSlashIgnored(path: string)
    ensures path != [] ==> Basename(path + "/") == Basename(path)
    ensures Extname(path + "/") == Extname(path)
  {
    var p := path + "/";
    assert p[..|p| - 1] == path;
    assert StripTrailingSlashes(p) == StripTrailingSlashes(path);
  }

  /** Drops the leading dots of a file name, as `File.extname` does before looking for the extension. */
  function StripLeadingDots(s: string): (r: string)
    ensures IsSuffix(r, s)
    ensures |r| == 0 || r[0] != '.'
    ensures forall i :: 0 <= i < |s| - |r| ==> s[i] == '.'
  {
    if |s| > 0 && s[0] == '.' then StripLeadingDots(s[1..]) else s
  }

  lemma SuffixMembers(a: string, b: string, c: char)
    requires IsSuffix(a, b) && c !in b
    ensures c !in a
  {
  }

  /** The extension of a name without leading dots: from its last dot, unless that dot ends the name. */
  function DotExtension(base: string): (r: string)
    ensures r == [] || (|r| >= 2 && r[0] == '.' && '.' !in r[1..])
    ensures IsSuffix(r, base)
  {
    match LastIndexOfChar(base, '.')
    case None => []
    case Some(d) =>
      if d + 1 == |base| then []
      else
        assert base[d..][1..] == base[d + 1..];
        base[d..]
  }

  /**
   `File.extname` as Ruby before 2.7 computes it on a POSIX system: the part
   of the basename from its last dot, ignoring leading dots, and empty when
   there is no such dot or the dot is the last character.
   */
  function Extname(path: string): string {
    DotExtension(StripLeadingDots(Basename(path)))
  }

  /**
   An extension is empty or a dot followed by at least one character and no
   further dot; it has no separator and ends the path once its trailing
   separators are dropped.
   */
  lemma ExtnameShape(path: string)
    ensures var r := Extname(path);
      && (r == [] || (|r| >= 2 && r[0] == '.' && '.' !in r[1..]))
      && '/' !in r && IsSuffix(r, StripTrailingSlashes(path))
  {
    var t := StripTrailingSlashes(path);
    var name := Basename(path);
    var base := StripLeadingDots(name);
    var r := DotExtension(base);
    SuffixTransitive(r, base, name);
    if t == [] {
      assert |name| <= 1;
      assert r == [];
    } else {
      SuffixMembers(r, name, '/');
      SuffixTransitive(r, name, t);
    }
  }

  lemma DotExtensionOfName(stem: string, ext: string)
    requires '.' !in ext && ext != []
    ensures DotExtension(stem + "." + ext) == "." + ext
  {
    var name := stem + "." + ext;
    assert name[|stem|] == '.';
    assert name[|stem| + 1..] == ext;
    assert name[|stem|..] == "." + ext;
  }

  lemma ExtnameOfFileName(dir: string, stem: string, ext: string)
    requires '/' !in stem && '/' !in ext && '.' !in ext && ext != []
    requires stem != [] && stem[0] != '.'
    ensures Extname(dir + "/" + stem + "." + ext) == "." + ext
  {
    var name := stem + "." + ext;
    assert dir + "/" + stem + "." + ext == dir + "/" + name;
    assert '/' !in name;
    BasenameAfterSlash(dir, name);
    assert StripLeadingDots(name) == name;
    DotExtensionOfName(stem, ext);
  }

  /** Ruby's `s.split(c)[0]` on a name that is not made only of `c`s: the text before the first `c`. */
  function PrefixBefore(s: string, c: char): (r: string)
    ensures c !in r && |r| <= |s| && s[..|r|] == r
    ensures |r| == |s| || s[|r|] == c
  {
    match FirstIndexOfChar(s, c)
    case None => s
    case Some(i) => s[..i]
  }

  lemma PrefixBeforeSuffix(stem: string, tail: string, c: char)
    requires c !in stem
    requires tail == [] || tail[0] == c
    ensures PrefixBefore(stem + tail, c) == stem
  {
    var s := stem + tail;
    assert s[..|stem|] == stem;
    assert |tail| > 0 ==> s[|stem|] == c;
    assert forall k :: 0 <= k < |stem| ==> s[k] == stem[k];
  }
}

=== FILE: wrappers.dfy ===
/** Optional values and results with an error channel, shared by every module. */
module Wrappers {

  datatype Option<+T> = None | Some(value: T)

  datatype Result<+T, +E> = Success(value: T) | Failure(error: E)
}
